=== FILE: README.md ===
# Movie catalog: accounts, sessions and watch lists

A functional Dafny model of the logic of a movie-catalog web application that is
more than UI or SDK glue. The backend keeps one user document per account
(email, salted password digest, ordered `likedMovies` list). It offers
`/signup`, `/login`, the token-protected `/me`, `/add`, `/remove`, `/mylist` and
`/api/auth/me`, guarded by the `verifyToken` middleware, which reads the token
from a `Bearer` header. The client truncates movie overviews and refuses to save
a movie without a stored token. Its saved-shows view mirrors the server's
removal on its local list.

Layout, one module per file:

- `wrappers.dfy` (`Wrappers`): `Option`, standing in for `null`/`undefined`.
- `user_model.dfy` (`UserModel`): the user document and its movie entries, as
  declared by the schema. A `Movie` is a numeric `id`, a `title` and an `img`. A
  `User` has only `email`, `password` and `likedMovies`; there is no avatar
  field. The module also holds the list semantics of `find` by id, `$push` and
  `$pull`/`filter`.
- `crypto.dfy` (`Crypto`): bcrypt and JSON Web Tokens (RFC 7519), kept abstract.
  Each is a record of functions. The hasher recovers its salt from a digest. The
  signer is bound to the server secret; its `decode` checks the signature. Lemmas
  assume only what they name: `SaltRecoverable`, `Sound` (decode inverts sign),
  `Compact` (tokens are non-empty and contain no space) and `Unforgeable` (only
  signed strings decode).
- `http.dfy` (`Http`): status codes, response bodies and the exact message
  strings.
- `auth.dfy` (`Auth`): the middleware. This covers JavaScript's `split(" ")`,
  field 1 of the split, and the three-way refusal: 401 "No Token Provided",
  401 "Malformed Token" and 400 "Invalid Token".
- `server.dfy` (`Server`): the handlers as transitions
  `(Db, request) -> (Db, Response)`, the router `Handle`, and `Run` over a
  sequence of requests.
- `sessions.dfy` (`Sessions`): signup, then login, then verification, end to end.
- `client.dfy` (`Client`): `truncateString`, `saveMovie` and the SavedShows
  state (`FetchSaved`, `DeleteShow`), together with their effect on the server.

The collection is a sequence of documents, and an account's `_id` is its
position in that sequence. Documents are never deleted, so positions never get
reused. A new account's id is the current length. `FindByEmail` returns the
first position holding the email. Under the invariant `Server.Valid`, emails are
unique, so that is the only match, which is the document `findOne` returns.

Edge cases the code decides:

- `findById` returns `null` for an id that names no document. `/add` and
  `/mylist` then throw while reading `likedMovies` and answer 500 "Server
  error". `/remove` for such an id updates nothing and still answers
  "Movie removed". `/api/auth/me` answers 404.
- `/add` answers with the document as read before the `$push`
  (Backend/server.js:114,130), so the response lacks the new movie.
- The schema (Backend/models/User.js:3-22) declares no avatar path, so `User`
  has none.
- An empty `Authorization` header is falsy, so it counts as "No Token Provided".
  The scheme word is never checked.
- An invalid token is answered 400, not 401.
- Mongoose's `required` validator rejects an empty string. A signup with an
  empty email therefore fails at `save` with 500, and the store is unchanged.
- With no stored token, SavedShows sends `Bearer null`.
- Until the popular list has loaded, the banner's movie is `undefined`, and
  `saveMovie` throws before sending anything, even with a token.

## Model

| member | source | states |
|---|---|---|
| UserModel.FindById | Backend/server.js:115 | `find` by id returns nothing exactly when no entry has the id; otherwise it returns the first entry with that id |
| UserModel.RemoveId | Backend/server.js:143-150 | `$pull` by id: an entry survives iff it was there and has a different id; no entry with the id remains; the length drops by the number of matching entries |
| UserModel.RemoveIdIsSubsequence | Frontend/src/components/SavedShows.jsx:35 | the entries that survive removal keep their relative order (they form a subsequence of the original) |
| UserModel.RemoveIdAbsent | Backend/server.js:143-152 | removing an id that is absent leaves the list unchanged |
| UserModel.RemoveIdIdempotent | Backend/server.js:143-152 | removing the same id twice gives the same result as removing it once |
| UserModel.RemoveIdAppend | Frontend/src/components/SavedShows.jsx:35 | removal distributes over concatenation, so it acts on each entry in place |
| UserModel.RemoveIdKeepsUnique | Backend/server.js:143-150 | removal keeps a list free of duplicate ids |
| UserModel.AppendFreshKeepsUnique | Backend/server.js:114-128 | appending an entry whose id is new keeps the list free of duplicate ids |
| UserModel.RemoveAfterAppend | Backend/server.js:122-150 | pulling the id of an entry just pushed onto a list that lacked it restores the list |
| Crypto.VerifyJwt | Backend/middleware/auth.js:19-30 | a token verifies iff its signature decodes and the time is strictly before `exp`; otherwise the outcome is a bad signature or expiry |
| Crypto.IssuedTokenLifetime | Backend/server.js:87-89 | a token issued at time t verifies with its payload exactly while now < t + 86400 and is expired from then on |
| UserModel.CountAppend | Backend/server.js:122-128 | appending an entry raises the count of its id by one and leaves other counts unchanged |
| UserModel.CountAbsent | Backend/server.js:115-119 | an id that `find` does not find occurs zero times |
| Crypto.CompareHashed | Backend/server.js:78 | a digest made from a password matches that password again |
| Auth.Split | Backend/middleware/auth.js:13 | `split(" ")` yields at least one field, no field contains the separator, and rejoining the fields gives back the header |
| Auth.SplitJoin | Backend/middleware/auth.js:13 | splitting a join of separator-free fields gives back those fields (the inverse direction of the round trip) |
| Auth.TokenFieldIsSecondField | Backend/middleware/auth.js:13 | field `[1]` equals the text after the first space, up to the next space or the end; it is missing when there is no space |
| Auth.TokenFieldOf | Backend/middleware/auth.js:13 | for `scheme + " " + token + tail`, where the tail is empty or starts with a space, field 1 is the token |
| Auth.BearerField | Backend/middleware/auth.js:13 | the header `Bearer <token>`, for a space-free token, yields that token |
| Auth.VerifyToken | Backend/middleware/auth.js:4-30 | every refusal is a `{message}` answer; 401 iff the header is missing or empty or field 1 is missing or empty; `next` is reached iff field 1 is present, non-empty and verifies, and then `req.user` is exactly the decoded, unexpired payload; every other refusal is 400 "Invalid Token" |
| Auth.AcceptedTokensWereIssued | Backend/middleware/auth.js:19-27 | with an unforgeable signer, a token that reaches `next` is exactly the server's signature of the payload handed on as `req.user` |
| Auth.NoTokenProvidedExactly | Backend/middleware/auth.js:8-10 | the answer is 401 "No Token Provided" iff the header is absent or empty |
| Auth.MalformedIffNoField | Backend/middleware/auth.js:13-17 | a non-empty header gets 401 "Malformed Token" iff field 1 is missing or empty |
| Auth.MalformedExactly | Backend/middleware/auth.js:13-17 | a non-empty header gets 401 "Malformed Token" iff it has no space, ends at its first space, or has a second space right after the first |
| Auth.SchemeIgnored | Backend/middleware/auth.js:13 | any space-free scheme word and any space-led tail give the same verdict as `Bearer <token>` |
| Auth.InvalidTokenRejected | Backend/middleware/auth.js:19-30 | a well-formed header whose token fails verification (bad signature or expiry) gets 400 "Invalid Token" |
| Auth.SchemeOnlyIsMalformed | Backend/middleware/auth.js:13-17 | the header `Bearer` gets 401 "Malformed Token" |
| Auth.TrailingSpaceIsMalformed | Backend/middleware/auth.js:13-17 | the header `Bearer ` gets 401 "Malformed Token" |
| Auth.DoubleSpaceIsMalformed | Backend/middleware/auth.js:13-17 | the header `Bearer  x` gets 401 "Malformed Token" |
| Server.FindByEmail | Backend/server.js:40 | `findOne({email})` finds nothing iff no account has the email; otherwise it returns the first account with that email |
| Server.FindByEmailUnique | Backend/models/User.js:4-8 | when emails are unique, the account found is the one holding the email |
| Server.Signup | Backend/server.js:36-64 | 400 iff the email is already registered, with the store unchanged; a new email whose document fails the required validators gets 500 with the store unchanged; 201 iff the email is new and both email and digest are non-empty, and then exactly one document `{email, Hash(password, salt), []}` is appended; every non-201 answer leaves the store unchanged; the invariant is kept |
| Server.SignupTwiceRejected | Backend/server.js:40-43 | after a successful signup, a second signup with the same email gets 400 "User already exists" and changes nothing |
| Server.Login | Backend/server.js:67-97 | the answer is 200 or the single 400 "Invalid Credentials"; in a valid store it is 200 iff some account has the email and the password matches; the 200 answer then says "Login Successful" and its token signs `{id, iat: now, exp: now + 1 day}` for that account |
| Server.Me | Backend/server.js:100-104 | `/me` answers 200 "This is a protected route" with the verified payload |
| Server.Add | Backend/server.js:107-134 | an unknown account gets 500 and a duplicate id gets 400, both with the store unchanged; otherwise only that account's list changes, by appending `{id, title, img}` at the end; the 200 response holds the pre-push document, which lacks the movie; the invariant is kept |
| Server.AddTwiceRejected | Backend/server.js:113-119 | adding the same id twice is refused the second time, and the list holds that id exactly once |
| Server.Remove | Backend/server.js:138-156 | the answer is always 200 "Movie removed"; only the token's account changes; its list loses exactly the entries with the id, keeps every other entry in order, and shrinks by the number of matching entries; email and password are untouched; the invariant is kept |
| Server.RemoveIdempotent | Backend/server.js:143-152 | a repeated `/remove` is a no-op |
| Server.RemoveAbsentUnchanged | Backend/server.js:143-152 | `/remove` of an id that is not in the list leaves the store unchanged |
| Server.RemoveUndoesAdd | Backend/server.js:122-150 | `/remove` of a movie that `/add` has just appended restores the store |
| Server.MyList | Backend/server.js:159-166 | 200 with the account's list iff the account exists; 500 "Server error" otherwise |
| Server.MyListInInsertionOrder | Backend/server.js:122-162 | after three adds of fresh ids, `/mylist` returns the earlier entries followed by those three, in order |
| Server.AuthMe | Backend/server.js:219-235 | 200 with the account's id, email and list (no password) iff the account exists; 404 "User not found" otherwise |
| Server.Handle | Backend/server.js:36-166 | a refused token answers with the middleware's response and leaves the store unchanged; a verified token changes only the account it names; only signup adds accounts, and it keeps every existing document as it was; login changes nothing; every request keeps the invariant |
| Server.HandleExtends | Backend/server.js:36-166 | no request removes an account or changes an email or password |
| Server.RunPreserves | Backend/server.js:36-166 | any sequence of requests keeps the invariant (unique emails, schema-valid documents, no duplicate movie ids) and every existing account |
| Sessions.SignupLoginVerify | Backend/server.js:46-92 | after a successful signup, login with the same password succeeds with the new account's id; its `Bearer` token passes the middleware as that account until one day has passed and gets "Invalid Token" after that |
| Sessions.WrongPasswordLikeUnknownEmail | Backend/server.js:72-81 | a wrong password and an unknown email get the identical 400 "Invalid Credentials" answer |
| Client.SlicePrefix | Frontend/src/components/Main.jsx:19 | `slice(0, end)` gives a prefix; the prefix is `end` long for `0 <= end <= length`, and a negative end counts back from the end |
| Client.TruncateString | Frontend/src/components/Main.jsx:17-23 | `undefined` is returned as is; a string no longer than `num` is returned unchanged; for `num >= 0`, a longer one becomes its first `num` characters followed by `...`, exactly `num + 3` long |
| Client.TruncateIdempotent | Frontend/src/components/Main.jsx:17-23 | for a width `num >= 0`, truncating twice is the same as truncating once |
| Client.TruncateNegativeWidthNotIdempotent | Frontend/src/components/Main.jsx:18-19 | with width -1, truncating `"ab"` twice differs from truncating it once, so idempotence needs `num >= 0` |
| Client.OverviewBounded | Frontend/src/components/Main.jsx:95 | the banner overview, truncated at 150, is at most 153 characters long |
| Client.SaveMovie | Frontend/src/components/Main.jsx:9-55 | the login prompt appears iff the stored token is missing or empty; a request is sent iff there is a non-empty token and the banner movie is defined, and it is `/add` with `Bearer <token>` and the movie's id, title and image |
| Client.SaveMovieAppendsToOwnList | Frontend/src/components/Main.jsx:46-56 | for a movie not yet in the list, a request from `saveMovie` that carries a valid token succeeds and appends the movie to that account's list only |
| Client.MissingTokenSentAsNull | Frontend/src/components/SavedShows.jsx:12-14 | with no stored token, the header carries the literal token `null` to signature checking |
| Client.FetchSaved | Frontend/src/components/SavedShows.jsx:9-22 | a successful reply replaces the list with the server's `likedMovies`; a failed request leaves the state unchanged |
| Client.FailedFetchLeavesEmpty | Frontend/src/components/SavedShows.jsx:6-20 | a failed first fetch leaves the initial empty list |
| Client.DeleteShow | Frontend/src/components/SavedShows.jsx:25-39 | after a successful `/remove`, no item has the id, every other item remains in order, and the list shrinks by the number of matching items; if the request throws, the list is unchanged |
| Client.FetchShowsServerList | Frontend/src/components/SavedShows.jsx:10-16 | with a valid token, the first fetch shows exactly the account's list on the server |
| Client.DeleteMirrorsServer | Frontend/src/components/SavedShows.jsx:25-35 | when the screen shows the account's list, the `/remove` succeeds and the client and server end with the same list |

## Left out

- bcrypt and `jwt.sign`/`jwt.verify` internals: these are library cryptography. They are abstract records of functions, and the lemmas state what they assume of them.
- Salt generation, the clock and browser storage: these are inputs (`salt`, `now`, `token`).
- Separate backend hosts: the login and `/add` calls go to one host, and the `/signup` call and the SavedShows calls go to another (`localhost:5000`). The model assumes both serve one database with one JWT secret.
- Payment (`/payment`) and avatar upload (`/upload`): these call external payment and object-storage services.
- Express wiring, the database connection, CORS and `listen`: this is framework I/O.
- Request bodies with missing fields, and Mongoose casting (string versus numeric movie ids, the undeclared `profilePicture` path): this is library behaviour that is not visible in the code. Body fields are present strings and integers, and a JavaScript number id is an `int`.
- The `_id` Mongoose gives each `likedMovies` subdocument: the code never reads it.
- The gap between `findById` and `$push` in `/add`, and the database's unique index as a guard against concurrent signups: requests are served one at a time.
- The 500 answers for unexpected exceptions (database down and the like). Only the 500s that follow from a missing document are modelled.
- String length: JavaScript counts UTF-16 code units, and the model counts Dafny characters.
- The random hero-movie pick, the trailer link, alerts, toasts and rendering: these are UI, randomness and floating point.

=== FILE: auth.dfy ===
/** The `verifyToken` middleware (Backend/middleware/auth.js): read the
    `Authorization` header, take field 1 of its split on single spaces as the
    token, verify it, and either pass the decoded payload on or answer with an
    error. The header is meant to have the `Bearer <token>` form of section 2.1
    of RFC 6750, but the scheme word is never looked at. */
module Auth {
  import opened Wrappers
  import opened Crypto
  import opened Http

  /** Rejoin fields with a separator between neighbours. */
  function Join(fields: seq<string>, sep: char): string
    requires |fields| >= 1
    decreases |fields|
  {
    if |fields| == 1 then fields[0] else fields[0] + [sep] + Join(fields[1..], sep)
  }

  /** JavaScript's `s.split(sep)` for a one-character separator: every occurrence
      separates, so neighbouring separators give empty fields, and the empty
      string gives one empty field. */
  function Split(s: string, sep: char): (fields: seq<string>)
    ensures |fields| >= 1
    ensures forall i :: 0 <= i < |fields| ==> sep !in fields[i]
    ensures Join(fields, sep) == s
    decreases |s|
  {
    if |s| == 0 then [""]
    else
      var rest := Split(s[1..], sep);
      if s[0] == sep then
        assert [sep] + s[1..] == s;
        [""] + rest
      else
        var f := [s[0]] + rest[0];
        assert ([f] + rest[1..])[1..] == rest[1..];
        if |rest| == 1 then
          assert [s[0]] + s[1..] == s;
          [f] + rest[1..]
        else
          assert Join(rest, sep) == rest[0] + [sep] + Join(rest[1..], sep);
          assert f + [sep] + Join(rest[1..], sep) == [s[0]] + (rest[0] + [sep] + Join(rest[1..], sep));
          assert [s[0]] + s[1..] == s;
          [f] + rest[1..]
  }

  /** A string without the separator is a single field. */
  lemma {:induction false} SplitWithoutSeparator(f: string, sep: char)
    requires sep !in f
    ensures Split(f, sep) == [f]
  {
  }

  /** A separator-free prefix followed by the separator is the first field. */
  lemma {:induction false} SplitAfterSeparator(f: string, sep: char, t: string)
    requires sep !in f
    ensures Split(f + [sep] + t, sep) == [f] + Split(t, sep)
    decreases |f|
  {
    var s := f + [sep] + t;
    if |f| == 0 {
      assert s[0] == sep && s[1..] == t;
    } else {
      assert sep !in f[1..] by {
        forall k | 0 <= k < |f[1..]| ensures f[1..][k] != sep {
          assert f[1..][k] == f[k + 1];
        }
      }
      SplitAfterSeparator(f[1..], sep, t);
      assert s[1..] == f[1..] + [sep] + t;
      assert s[0] == f[0] && s[0] != sep;
      assert [f[0]] + f[1..] == f;
    }
  }

  /** Splitting undoes joining separator-free fields: the two are inverse. */
  lemma {:induction false} SplitJoin(fields: seq<string>, sep: char)
    requires |fields| >= 1
    requires forall i :: 0 <= i < |fields| ==> sep !in fields[i]
    ensures Split(Join(fields, sep), sep) == fields
    decreases |fields|
  {
    if |fields| == 1 {
      SplitWithoutSeparator(fields[0], sep);
    } else {
      SplitJoin(fields[1..], sep);
      SplitAfterSeparator(fields[0], sep, Join(fields[1..], sep));
      assert fields == [fields[0]] + fields[1..];
    }
  }

  /** `authHeader.split(" ")[1]`: `None` plays `undefined` when there is no
      second field. */
  function TokenField(header: string): Option<string> {
    var fields := Split(header, ' ');
    if |fields| > 1 then Some(fields[1]) else None
  }

  /** The index of the first occurrence of `c` in `s`. */
  function IndexOf(s: string, c: char): (i: nat)
    requires c in s
    ensures i < |s| && s[i] == c && c !in s[..i]
  {
    if s[0] == c then 0
    else
      var k := IndexOf(s[1..], c);
      assert s[..k + 1] == [s[0]] + s[1..][..k];
      k + 1
  }

  /** Reference reading of field 1: whatever lies after the first space, up to the
      next space or the end; nothing when there is no space at all. */
  function SecondField(header: string): Option<string> {
    if ' ' !in header then None
    else
      var rest := header[IndexOf(header, ' ') + 1..];
      Some(if ' ' in rest then rest[..IndexOf(rest, ' ')] else rest)
  }

  /** The first field of a split is the text before the first separator. */
  lemma FirstField(t: string, sep: char)
    ensures Split(t, sep)[0] == if sep in t then t[..IndexOf(t, sep)] else t
  {
  }

  /** Field 1 of the split is exactly the reference reading. */
  lemma TokenFieldIsSecondField(header: string)
    ensures TokenField(header) == SecondField(header)
  {
    if ' ' in header {
      var i := IndexOf(header, ' ');
      assert header == header[..i] + [' '] + header[i + 1..];
      SplitAfterSeparator(header[..i], ' ', header[i + 1..]);
      FirstField(header[i + 1..], ' ');
    } else {
      SplitWithoutSeparator(header, ' ');
    }
  }

  /** Field 1 ignores the first field and everything after its own end. */
  lemma TokenFieldOf(scheme: string, token: string, tail: string)
    requires ' ' !in scheme && ' ' !in token
    requires tail == [] || tail[0] == ' '
    ensures TokenField(scheme + " " + token + tail) == Some(token)
  {
    SplitAfterSeparator(scheme, ' ', token + tail);
    assert scheme + " " + token + tail == scheme + [' '] + (token + tail);
    if tail == [] {
      assert token + tail == token;
      SplitWithoutSeparator(token, ' ');
    } else {
      assert token + tail == token + [' '] + tail[1..];
      SplitAfterSeparator(token, ' ', tail[1..]);
    }
  }

  /** The middleware either calls `next` once with the decoded payload as
      `req.user`, or answers and stops. */
  datatype Gate = Next(user: Claims) | Deny(response: Response)

  /** `verifyToken(req, res, next)`; `header` is `req.header('Authorization')`,
      `None` when absent. */
  function VerifyToken(header: Option<string>, j: Jwt, now: int): (g: Gate)
    ensures g.Deny? ==> g.response.body.Message?
    ensures g.Deny? && g.response.status == 401 <==> header.None? || header.value == "" || TokenField(header.value) in {None, Some("")}
    ensures g.Next? <==> header.Some? && TokenField(header.value).Some? && TokenField(header.value).value != ""
                         && VerifyJwt(j, TokenField(header.value).value, now).Verified?
    ensures g.Next? ==> j.decode(TokenField(header.value).value) == Some(g.user) && now < g.user.exp
    ensures g.Deny? && g.response.status != 401 ==> g.response == Response(400, Message(InvalidToken))
  {
    if header.None? || header.value == "" then
      Deny(Response(401, Message(NoTokenProvided)))
    else
      match TokenField(header.value)
      case None => Deny(Response(401, Message(MalformedToken)))
      case Some(token) =>
        if token == "" then Deny(Response(401, Message(MalformedToken)))
        else match VerifyJwt(j, token, now)
          case Verified(c) => Next(c)
          case _ => Deny(Response(400, Message(InvalidToken)))
  }

  /** With a signer that cannot be forged, every token the middleware lets
      through is one the server signed, for exactly the payload handed on. */
  lemma AcceptedTokensWereIssued(header: Option<string>, j: Jwt, now: int)
    requires Unforgeable(j)
    requires VerifyToken(header, j, now).Next?
    ensures TokenField(header.value).value == j.sign(VerifyToken(header, j, now).user)
  {
  }

  /** A missing or empty header is refused with 401 "No Token Provided". */
  lemma NoTokenProvidedExactly(header: Option<string>, j: Jwt, now: int)
    ensures VerifyToken(header, j, now) == Deny(Response(401, Message(NoTokenProvided)))
            <==> header.None? || header.value == ""
  {
  }

  /** The reference reading of field 1 is missing or empty exactly when the header
      has no space, ends at its first space, or has a second space right after it. */
  lemma SecondFieldEmpty(header: string)
    ensures SecondField(header) in {None, Some("")}
            <==> ' ' !in header || IndexOf(header, ' ') == |header| - 1 || header[IndexOf(header, ' ') + 1] == ' '
  {
  }

  /** A non-empty header is refused as malformed exactly when field 1 is missing
      or empty. */
  lemma MalformedIffNoField(header: string, j: Jwt, now: int)
    requires header != ""
    ensures VerifyToken(Some(header), j, now) == Deny(Response(401, Message(MalformedToken)))
            <==> TokenField(header).None? || TokenField(header) == Some("")
  {
  }

  /** A non-empty header is refused as malformed exactly when it has no space, or
      its first space is followed by another space or by the end of the header. */
  lemma MalformedExactly(header: string, j: Jwt, now: int)
    requires header != ""
    ensures VerifyToken(Some(header), j, now) == Deny(Response(401, Message(MalformedToken)))
            <==> ' ' !in header || IndexOf(header, ' ') == |header| - 1 || header[IndexOf(header, ' ') + 1] == ' '
  {
    MalformedIffNoField(header, j, now);
    TokenFieldIsSecondField(header);
    SecondFieldEmpty(header);
  }

  /** The verdict depends only on field 1: the scheme word is never inspected and
      fields after the token are ignored, so `Basic abc` and `Bearer abc def` are
      treated as `Bearer abc`. */
  lemma SchemeIgnored(scheme: string, token: string, tail: string, j: Jwt, now: int)
    requires scheme != "" && ' ' !in scheme && ' ' !in token
    requires tail == [] || tail[0] == ' '
    ensures VerifyToken(Some(scheme + " " + token + tail), j, now) == VerifyToken(Some("Bearer " + token), j, now)
  {
    BearerField(token);
    TokenFieldOf(scheme, token, tail);
  }

  /** The header the client sends, `Bearer ${token}`, yields the token as field 1. */
  lemma BearerField(token: string)
    requires ' ' !in token
    ensures TokenField("Bearer " + token) == Some(token)
  {
    TokenFieldOf("Bearer", token, []);
    assert "Bearer" + " " + token + [] == "Bearer " + token;
  }

  /** A correctly formed header carrying a token that fails verification, by a bad
      signature or by expiry, is answered 400 "Invalid Token". */
  lemma InvalidTokenRejected(token: string, j: Jwt, now: int)
    requires token != "" && ' ' !in token
    requires !VerifyJwt(j, token, now).Verified?
    ensures VerifyToken(Some("Bearer " + token), j, now) == Deny(Response(400, Message(InvalidToken)))
  {
    BearerField(token);
  }

  /** `Bearer` alone has no field 1. */
  lemma SchemeOnlyIsMalformed(j: Jwt, now: int)
    ensures VerifyToken(Some("Bearer"), j, now) == Deny(Response(401, Message(MalformedToken)))
  {
    SplitWithoutSeparator("Bearer", ' ');
  }

  /** `Bearer ` has an empty field 1. */
  lemma TrailingSpaceIsMalformed(j: Jwt, now: int)
    ensures VerifyToken(Some("Bearer "), j, now) == Deny(Response(401, Message(MalformedToken)))
  {
    BearerField("");
    assert "Bearer " + "" == "Bearer ";
  }

  /** `Bearer  x` (two spaces) has an empty field 1 and the token lands in field 2. */
  lemma DoubleSpaceIsMalformed(j: Jwt, now: int)
    ensures VerifyToken(Some("Bearer  x"), j, now) == Deny(Response(401, Message(MalformedToken)))
  {
    TokenFieldOf("Bearer", "", " x");
    assert "Bearer" + " " + "" + " x" == "Bearer  x";
  }
}

=== FILE: client.dfy ===
/** The client-side logic of the single-page app: overview truncation and the
    no-token guard of the hero banner (Frontend/src/components/Main.jsx), and the
    saved-shows list state (Frontend/src/components/SavedShows.jsx). Browser
    storage is an input (`token`, `None` for a missing item) and a server round
    trip is an input reply (`None` when the request fails without an answer). */
module Client {
  import opened Wrappers
  import opened UserModel
  import opened Crypto
  import opened Http
  import opened Auth
  import opened Server

  /** JavaScript's `s.slice(0, end)`: a negative `end` counts back from the end
      of the string, and an `end` beyond it stops at the end. */
  function SlicePrefix(s: string, end: int): (r: string)
    ensures r <= s
    ensures 0 <= end <= |s| ==> |r| == end
    ensures end > |s| ==> r == s
    ensures end < 0 ==> |r| == if |s| + end < 0 then 0 else |s| + end
  {
    if end < 0 then s[..if |s| + end < 0 then 0 else |s| + end]
    else if end < |s| then s[..end]
    else s
  }

  /** `truncateString(str, num)`. `None` plays `undefined`/`null`: `str?.length > num`
      is then false and the input comes back as it is. */
  function TruncateString(str: Option<string>, num: int): (r: Option<string>)
    ensures str.None? ==> r.None?
    ensures str.Some? && |str.value| <= num ==> r == str
    ensures str.Some? && 0 <= num < |str.value| ==>
              && r.Some?
              && |r.value| == num + 3
              && r.value[..num] == str.value[..num]
              && r.value[num..] == "..."
  {
    match str
    case None => None
    case Some(s) => if |s| > num then Some(SlicePrefix(s, num) + "...") else Some(s)
  }

  /** For a fixed non-negative width, truncating twice is truncating once. */
  lemma TruncateIdempotent(str: Option<string>, num: int)
    requires num >= 0
    ensures TruncateString(TruncateString(str, num), num) == TruncateString(str, num)
  {
  }

  /** With a negative width the truncation is not idempotent: the slice then counts
      back from the end and the ellipsis grows on every application. */
  lemma TruncateNegativeWidthNotIdempotent()
    ensures TruncateString(TruncateString(Some("ab"), -1), -1) != TruncateString(Some("ab"), -1)
  {
  }

  /** The hero banner shows an overview of at most 153 characters. */
  const OverviewWidth: int := 150

  lemma OverviewBounded(overview: string)
    ensures |TruncateString(Some(overview), OverviewWidth).value| <= OverviewWidth + 3
  {
  }

  /** What `saveMovie` does: ask the user to log in, send the /add request, or
      fail before sending because the banner has no movie yet (reading
      `movie.id` of `undefined` throws inside the `try`). */
  datatype SaveAction = PromptLogin | SendAdd(request: Request) | NoMovie

  /** `saveMovie` with the stored `token` and the banner's `movie`, which is
      `undefined` (`None`) until the popular list has loaded: a request is sent
      exactly when there is a non-empty token and a movie. */
  function SaveMovie(token: Option<string>, movie: Option<Movie>): (a: SaveAction)
    ensures a == PromptLogin <==> token.None? || token.value == ""
    ensures a.SendAdd? <==> token.Some? && token.value != "" && movie.Some?
    ensures a.SendAdd? ==>
              && a.request.AddRequest?
              && a.request.authorization == Some(BearerHeader(token))
              && Movie(a.request.id, a.request.title, a.request.img) == movie.value
  {
    if token.None? || token.value == "" then PromptLogin
    else match movie
      case None => NoMovie
      case Some(m) => SendAdd(AddRequest(Some(BearerHeader(token)), m.id, m.title, m.img))
  }

  /** A stored token the server issued, still within its day, makes the request
      of `saveMovie` append the movie to that account's list and nobody else's. */
  lemma SaveMovieAppendsToOwnList(db: Db, token: string, movie: Movie, env: Env, user: Claims)
    requires token != "" && ' ' !in token
    requires VerifyJwt(env.jwt, token, env.now) == Verified(user)
    requires user.id < |db.users| && !HasId(db.users[user.id].likedMovies, movie.id)
    ensures var s := Handle(db, SaveMovie(Some(token), Some(movie)).request, env);
            && Succeeded(s.response)
            && OnlyTouches(db, s.db, user.id)
            && s.db.users[user.id].likedMovies == db.users[user.id].likedMovies + [movie]
  {
    BearerField(token);
  }

  /** The Authorization header both components build with `Bearer ${token}`: a
      missing token prints as `null`. */
  function BearerHeader(token: Option<string>): string {
    "Bearer " + token.GetOr("null")
  }

  /** Without a stored token the server receives the literal token `null`, which
      is not rejected as missing or malformed but handed to signature checking. */
  lemma MissingTokenSentAsNull()
    ensures TokenField(BearerHeader(None)) == Some("null")
  {
    BearerField("null");
  }

  /** The component state of SavedShows. */
  datatype Shows = Shows(movies: seq<Movie>)

  const InitialShows: Shows := Shows([])

  /** `fetchSavedMovies`: a successful /mylist reply replaces the list; a failed
      request leaves the state as it was. */
  function FetchSaved(s: Shows, reply: Option<Response>): (s': Shows)
    ensures reply.Some? && Succeeded(reply.value) && reply.value.body.LikedMovies? ==>
              s'.movies == reply.value.body.movies
    ensures reply.None? || !Succeeded(reply.value) ==> s' == s
  {
    match reply
    case Some(r) =>
      if Succeeded(r) && r.body.LikedMovies? then Shows(r.body.movies) else s
    case None => s
  }

  /** A failed first fetch leaves the list empty. */
  lemma FailedFetchLeavesEmpty(reply: Option<Response>)
    requires reply.None? || !Succeeded(reply.value)
    ensures FetchSaved(InitialShows, reply).movies == []
  {
  }

  /** `deleteShow(passedID)`: after a successful /remove every item with that id
      leaves the local list and the others keep their order; if the request
      throws, nothing changes. */
  function DeleteShow(s: Shows, passedId: int, reply: Option<Response>): (s': Shows)
    ensures reply.Some? && Succeeded(reply.value) ==>
              && !HasId(s'.movies, passedId)
              && (forall m :: m in s'.movies <==> m in s.movies && m.id != passedId)
              && IsSubsequence(s'.movies, s.movies)
              && |s'.movies| == |s.movies| - CountId(s.movies, passedId)
    ensures reply.None? || !Succeeded(reply.value) ==> s' == s
  {
    RemoveIdIsSubsequence(s.movies, passedId);
    if reply.Some? && Succeeded(reply.value) then Shows(RemoveId(s.movies, passedId)) else s
  }

  /** The initial fetch with a valid token shows exactly the server's list. */
  lemma FetchShowsServerList(db: Db, token: string, env: Env, user: Claims)
    requires token != "" && ' ' !in token
    requires VerifyJwt(env.jwt, token, env.now) == Verified(user)
    requires user.id < |db.users|
    ensures var s := Handle(db, MyListRequest(Some(BearerHeader(Some(token)))), env);
            FetchSaved(InitialShows, Some(s.response)).movies == db.users[user.id].likedMovies
  {
    BearerField(token);
  }

  /** The local delete mirrors the server: when the list on screen is the
      account's list, the /remove request succeeds and both sides end with the
      same list. */
  lemma DeleteMirrorsServer(db: Db, token: string, env: Env, user: Claims, s: Shows, passedId: int)
    requires token != "" && ' ' !in token
    requires VerifyJwt(env.jwt, token, env.now) == Verified(user)
    requires user.id < |db.users| && s.movies == db.users[user.id].likedMovies
    ensures var step := Handle(db, RemoveRequest(Some(BearerHeader(Some(token))), passedId), env);
            && Succeeded(step.response)
            && DeleteShow(s, passedId, Some(step.response)).movies == step.db.users[user.id].likedMovies
  {
    BearerField(token);
  }
}

=== FILE: crypto.dfy ===
/** The two library collaborators of the backend, kept abstract: the password
    hasher (bcrypt's `genSalt`/`hash`/`compare`) and the token signer
    (`jwt.sign`/`jwt.verify`, JSON Web Tokens as in RFC 7519). Each is a record of
    functions, so every property proved below holds for every implementation that
    meets the stated assumptions. */
module Crypto {
  import opened Wrappers

  type Salt = string

  /** A salted one-way hash. As with bcrypt, the salt is recoverable from a digest,
      which is how a later comparison rehashes a candidate password. */
  datatype Hasher = Hasher(hash: (string, Salt) -> string, saltOf: string -> Salt)

  /** `bcrypt.compare(password, stored)`: rehash the candidate with the salt held
      in the stored digest and compare. */
  predicate Compare(h: Hasher, password: string, stored: string) {
    h.hash(password, h.saltOf(stored)) == stored
  }

  /** The digest embeds the salt it was made with. */
  ghost predicate SaltRecoverable(h: Hasher) {
    forall p, s :: h.saltOf(h.hash(p, s)) == s
  }

  /** A digest of `password` matches `password` again at login. */
  lemma CompareHashed(h: Hasher, password: string, salt: Salt)
    requires SaltRecoverable(h)
    ensures Compare(h, password, h.hash(password, salt))
  {
  }

  /** Seconds in the `expiresIn: "1d"` horizon of an issued token. */
  const OneDay: int := 86400

  /** The decoded token payload: the user id put in at signing plus the
      registered `iat` and `exp` claims (NumericDate seconds, section 4.1.4 and
      4.1.6 of RFC 7519). */
  datatype Claims = Claims(id: nat, iat: int, exp: int)

  /** A signer bound to the server's secret: `sign` produces the compact token
      string, `decode` checks its signature and returns the payload, or `None`
      when the string is not a token this secret signed. */
  datatype Jwt = Jwt(sign: Claims -> string, decode: string -> Option<Claims>)

  /** Decoding recovers what was signed. */
  ghost predicate Sound(j: Jwt) {
    forall c :: j.decode(j.sign(c)) == Some(c)
  }

  /** Only signed tokens decode: a string the secret did not sign is rejected. */
  ghost predicate Unforgeable(j: Jwt) {
    forall t, c :: j.decode(t) == Some(c) ==> t == j.sign(c)
  }

  /** Signed tokens are non-empty and free of spaces, as the base64url compact
      serialization of section 7.1 of RFC 7519 is. */
  ghost predicate Compact(j: Jwt) {
    forall c :: |j.sign(c)| > 0 && ' ' !in j.sign(c)
  }

  /** The three outcomes of `jwt.verify`. */
  datatype Verdict = Verified(claims: Claims) | BadSignature | Expired

  /** `jwt.verify(token, secret)` at time `now`: the signature must check and the
      current time must be strictly before `exp`. */
  function VerifyJwt(j: Jwt, token: string, now: int): (v: Verdict)
    ensures v.Verified? <==> j.decode(token).Some? && now < j.decode(token).value.exp
    ensures v.Verified? ==> j.decode(token) == Some(v.claims)
    ensures v == BadSignature <==> j.decode(token).None?
  {
    match j.decode(token)
    case None => BadSignature
    case Some(c) => if now >= c.exp then Expired else Verified(c)
  }

  /** The payload `jwt.sign({ id }, secret, { expiresIn: "1d" })` produces at `now`. */
  function Issue(id: nat, now: int): Claims {
    Claims(id, now, now + OneDay)
  }

  /** A token issued at `issued` verifies, with its payload, exactly during the
      following day, and is reported expired from then on. */
  lemma IssuedTokenLifetime(j: Jwt, id: nat, issued: int, now: int)
    requires Sound(j)
    ensures VerifyJwt(j, j.sign(Issue(id, issued)), now) ==
            if now < issued + OneDay then Verified(Issue(id, issued)) else Expired
  {
  }
}

=== FILE: http.dfy ===
/** The JSON responses the backend sends: an HTTP status and one of the body
    shapes its handlers build. */
module Http {
  import opened UserModel
  import opened Crypto

  datatype Body =
    | Message(text: string)                                    // { message }
    | UserCreated(text: string, id: nat, user: User)           // { message, user }
    | LoginOk(text: string, token: string, id: nat, user: User) // { message, token, user }
    | ProtectedRoute(text: string, claims: Claims)             // GET /me
    | MovieAdded(text: string, user: User)                     // { message, user }
    | LikedMovies(movies: seq<Movie>)                          // { likedMovies }
    | Profile(id: nat, email: string, likedMovies: seq<Movie>) // { success: true, user } without password
    | NotFound(text: string)                                   // { success: false, message }

  datatype Response = Response(status: int, body: Body)

  /** A 2xx status: the client library resolves instead of throwing. */
  predicate Succeeded(r: Response) {
    200 <= r.status < 300
  }

  const UserExists := "User already exists"
  const UserCreatedText := "User created successfully"
  const ServerError := "Server error"
  const InvalidCredentials := "Invalid Credentials"
  const LoginSuccessful := "Login Successful"
  const ProtectedText := "This is a protected route"
  const AlreadyInList := "Movie already in list"
  const MovieAddedText := "Movie added to list"
  const MovieRemoved := "Movie removed"
  const UserNotFound := "User not found"
  const NoTokenProvided := "Access Denied: No Token Provided!"
  const MalformedToken := "Access Denied: Malformed Token!"
  const InvalidToken := "Invalid Token"
}

=== FILE: server.dfy ===
/** The account and watch-list handlers of Backend/server.js as pure transitions
    over the users collection. Requests are served one at a time. The collection
    is a sequence of user documents and a user's `_id` is its position in it:
    documents are never deleted, so a new document's id is the current length. */
module Server {
  import opened Wrappers
  import opened UserModel
  import opened Crypto
  import opened Http
  import opened Auth

  datatype Db = Db(users: seq<User>)

  /** The collection after a request, and the response sent. */
  datatype Step = Step(db: Db, response: Response)

  /** The `unique: true` constraint on `email`. */
  predicate EmailsUnique(users: seq<User>) {
    forall i, j :: 0 <= i < j < |users| ==> users[i].email != users[j].email
  }

  /** The invariant every request preserves: unique emails, every document valid
      for the schema, and no watch list holding one movie id twice. */
  predicate Valid(db: Db) {
    && EmailsUnique(db.users)
    && (forall i :: 0 <= i < |db.users| ==> Admissible(db.users[i]))
    && (forall i :: 0 <= i < |db.users| ==> UniqueIds(db.users[i].likedMovies))
  }

  /** Some document has this email. */
  predicate Registered(users: seq<User>, email: string) {
    exists i :: 0 <= i < |users| && users[i].email == email
  }

  /** `User.findOne({ email })`: the id of the first document with that email. */
  function FindByEmail(users: seq<User>, email: string): (r: Option<nat>)
    ensures r.None? <==> !Registered(users, email)
    ensures r.Some? ==> r.value < |users| && users[r.value].email == email
    ensures r.Some? ==> forall k :: 0 <= k < r.value ==> users[k].email != email
  {
    if |users| == 0 then None
    else if users[0].email == email then Some(0)
    else
      match FindByEmail(users[1..], email)
      case None => None
      case Some(k) =>
        assert forall i :: 1 <= i <= k ==> users[i] == users[1..][i - 1];
        Some(k + 1)
  }

  /** With unique emails, the document found is the only one with that email. */
  lemma FindByEmailUnique(users: seq<User>, email: string, i: nat)
    requires EmailsUnique(users)
    requires i < |users| && users[i].email == email
    ensures FindByEmail(users, email) == Some(i)
  {
  }

  /** POST /signup. `salt` is the value `bcrypt.genSalt(10)` produced. */
  function Signup(db: Db, email: string, password: string, h: Hasher, salt: Salt): (s: Step)
    ensures Registered(db.users, email) ==> s == Step(db, Response(400, Message(UserExists)))
    ensures s.response.status == 400 <==> Registered(db.users, email)
    ensures !Registered(db.users, email) && !Admissible(User(email, h.hash(password, salt), [])) ==>
              s == Step(db, Response(500, Message(ServerError)))
    ensures s.response.status == 201 <==> !Registered(db.users, email) && Required(email) && Required(h.hash(password, salt))
    ensures s.response.status == 201 ==>
              && s.db.users == db.users + [User(email, h.hash(password, salt), [])]
              && s.response.body == UserCreated(UserCreatedText, |db.users|, User(email, h.hash(password, salt), []))
    ensures s.response.status != 201 ==> s.db == db
    ensures s.response.status in {201, 400, 500}
    ensures Valid(db) ==> Valid(s.db)
  {
    if FindByEmail(db.users, email).Some? then
      Step(db, Response(400, Message(UserExists)))
    else
      var u := User(email, h.hash(password, salt), []);
      if !Admissible(u) then
        Step(db, Response(500, Message(ServerError)))
      else
        var users := db.users + [u];
        assert forall i :: 0 <= i < |db.users| ==> users[i] == db.users[i];
        Step(Db(users), Response(201, UserCreated(UserCreatedText, |db.users|, u)))
  }

  /** POST /login. An unknown email and a wrong password give the same answer; a
      match yields a token for the document's id, valid for one day from `now`. */
  function Login(db: Db, email: string, password: string, h: Hasher, j: Jwt, now: int): (r: Response)
    ensures r.status == 200 || r == Response(400, Message(InvalidCredentials))
    ensures Valid(db) ==>
              (r.status == 200 <==> exists i :: 0 <= i < |db.users| && db.users[i].email == email
                                                 && Compare(h, password, db.users[i].password))
    ensures r.status == 200 ==>
              && r.body.LoginOk?
              && r.body.text == LoginSuccessful
              && r.body.id < |db.users|
              && r.body.user == db.users[r.body.id]
              && r.body.user.email == email
              && Compare(h, password, r.body.user.password)
              && r.body.token == j.sign(Claims(r.body.id, now, now + OneDay))
  {
    match FindByEmail(db.users, email)
    case None => Response(400, Message(InvalidCredentials))
    case Some(id) =>
      var user := db.users[id];
      if !Compare(h, password, user.password) then
        Response(400, Message(InvalidCredentials))
      else
        Response(200, LoginOk(LoginSuccessful, j.sign(Issue(id, now)), id, user))
  }

  /** GET /me: echo the verified payload. */
  function Me(user: Claims): (r: Response)
    ensures r == Response(200, ProtectedRoute(ProtectedText, user))
  {
    Response(200, ProtectedRoute(ProtectedText, user))
  }

  /** The documents other than `uid` are unchanged and none was added or lost. */
  predicate OnlyTouches(before: Db, after: Db, uid: nat) {
    && |after.users| == |before.users|
    && forall k :: 0 <= k < |before.users| && k != uid ==> after.users[k] == before.users[k]
  }

  /** POST /add for the user `uid` named by the token. `findById` yields `null`
      for an unknown id and reading its `likedMovies` throws, hence 500. The
      response carries the document as read before the push. */
  function Add(db: Db, uid: nat, id: int, title: string, img: string): (s: Step)
    ensures uid >= |db.users| ==> s == Step(db, Response(500, Message(ServerError)))
    ensures uid < |db.users| && HasId(db.users[uid].likedMovies, id) ==>
              s == Step(db, Response(400, Message(AlreadyInList)))
    ensures uid < |db.users| && !HasId(db.users[uid].likedMovies, id) ==>
              && OnlyTouches(db, s.db, uid)
              && s.db.users[uid].email == db.users[uid].email
              && s.db.users[uid].password == db.users[uid].password
              && s.db.users[uid].likedMovies == db.users[uid].likedMovies + [Movie(id, title, img)]
              && s.response == Response(200, MovieAdded(MovieAddedText, db.users[uid]))
              && !HasId(s.response.body.user.likedMovies, id)
    ensures Valid(db) ==> Valid(s.db)
  {
    if uid >= |db.users| then
      Step(db, Response(500, Message(ServerError)))
    else
      var user := db.users[uid];
      if FindById(user.likedMovies, id).Some? then
        Step(db, Response(400, Message(AlreadyInList)))
      else
        var entry := Movie(id, title, img);
        var updated := user.(likedMovies := user.likedMovies + [entry]);
        var users := db.users[uid := updated];
        assert Valid(db) ==> Valid(Db(users)) by {
          if Valid(db) {
            AppendFreshKeepsUnique(user.likedMovies, entry);
          }
        }
        Step(Db(users), Response(200, MovieAdded(MovieAddedText, user)))
  }

  /** PUT /remove: pull every entry with `movieId` from the user's list. The update
      matches nothing for an unknown id, and the answer is always the same. */
  function Remove(db: Db, uid: nat, movieId: int): (s: Step)
    ensures s.response == Response(200, Message(MovieRemoved))
    ensures OnlyTouches(db, s.db, uid)
    ensures uid >= |db.users| ==> s.db == db
    ensures uid < |db.users| ==>
              && s.db.users[uid].email == db.users[uid].email
              && s.db.users[uid].password == db.users[uid].password
              && !HasId(s.db.users[uid].likedMovies, movieId)
              && (forall m :: m in s.db.users[uid].likedMovies <==> m in db.users[uid].likedMovies && m.id != movieId)
              && IsSubsequence(s.db.users[uid].likedMovies, db.users[uid].likedMovies)
              && |s.db.users[uid].likedMovies| == |db.users[uid].likedMovies| - CountId(db.users[uid].likedMovies, movieId)
    ensures Valid(db) ==> Valid(s.db)
  {
    if uid >= |db.users| then
      Step(db, Response(200, Message(MovieRemoved)))
    else
      var user := db.users[uid];
      var kept := RemoveId(user.likedMovies, movieId);
      RemoveIdIsSubsequence(user.likedMovies, movieId);
      var users := db.users[uid := user.(likedMovies := kept)];
      assert Valid(db) ==> Valid(Db(users)) by {
        if Valid(db) {
          RemoveIdKeepsUnique(user.likedMovies, movieId);
        }
      }
      Step(Db(users), Response(200, Message(MovieRemoved)))
  }

  /** GET /mylist: the user's list in insertion order; 500 for an unknown id. */
  function MyList(db: Db, uid: nat): (r: Response)
    ensures uid < |db.users| <==> r.status == 200
    ensures r.status == 200 ==> r.body == LikedMovies(db.users[uid].likedMovies)
    ensures r.status != 200 ==> r == Response(500, Message(ServerError))
  {
    if uid >= |db.users| then Response(500, Message(ServerError))
    else Response(200, LikedMovies(db.users[uid].likedMovies))
  }

  /** GET /api/auth/me: the user's document without its password; 404 when the
      id names no document. */
  function AuthMe(db: Db, uid: nat): (r: Response)
    ensures uid < |db.users| <==> r.status == 200
    ensures r.status == 200 ==> r.body == Profile(uid, db.users[uid].email, db.users[uid].likedMovies)
    ensures r.status != 200 ==> r == Response(404, NotFound(UserNotFound))
  {
    if uid >= |db.users| then Response(404, NotFound(UserNotFound))
    else Response(200, Profile(uid, db.users[uid].email, db.users[uid].likedMovies))
  }

  /** A request as it reaches the router. Protected routes carry the raw
      `Authorization` header. */
  datatype Request =
    | SignupRequest(email: string, password: string)
    | LoginRequest(email: string, password: string)
    | MeRequest(authorization: Option<string>)
    | AddRequest(authorization: Option<string>, id: int, title: string, img: string)
    | RemoveRequest(authorization: Option<string>, movieId: int)
    | MyListRequest(authorization: Option<string>)
    | AuthMeRequest(authorization: Option<string>)
  {
    predicate Protected() {
      !SignupRequest? && !LoginRequest?
    }
  }

  /** What a request may observe of the outside world: the hasher, the signer
      bound to the server's secret, the fresh salt and the current time. */
  datatype Env = Env(hasher: Hasher, jwt: Jwt, salt: Salt, now: int)

  /** A protected handler applied to the verified payload. */
  function Guarded(db: Db, r: Request, user: Claims): Step
    requires r.Protected()
  {
    match r
    case MeRequest(_) => Step(db, Me(user))
    case AddRequest(_, id, title, img) => Add(db, user.id, id, title, img)
    case RemoveRequest(_, movieId) => Remove(db, user.id, movieId)
    case MyListRequest(_) => Step(db, MyList(db, user.id))
    case AuthMeRequest(_) => Step(db, AuthMe(db, user.id))
  }

  /** The router: public routes run directly, protected ones behind `verifyToken`. */
  function Handle(db: Db, r: Request, env: Env): (s: Step)
    ensures r.Protected() && VerifyToken(r.authorization, env.jwt, env.now).Deny? ==>
              s == Step(db, VerifyToken(r.authorization, env.jwt, env.now).response)
    ensures r.Protected() && VerifyToken(r.authorization, env.jwt, env.now).Next? ==>
              OnlyTouches(db, s.db, VerifyToken(r.authorization, env.jwt, env.now).user.id)
    ensures !r.SignupRequest? ==> |s.db.users| == |db.users|
    ensures r.LoginRequest? ==> s.db == db
    ensures r.SignupRequest? ==> |db.users| <= |s.db.users| && s.db.users[..|db.users|] == db.users
    ensures Valid(db) ==> Valid(s.db)
  {
    match r
    case SignupRequest(email, password) => Signup(db, email, password, env.hasher, env.salt)
    case LoginRequest(email, password) => Step(db, Login(db, email, password, env.hasher, env.jwt, env.now))
    case _ =>
      match VerifyToken(r.authorization, env.jwt, env.now)
      case Deny(resp) => Step(db, resp)
      case Next(user) => Guarded(db, r, user)
  }

  /** Serve the requests in order, each with its own environment. */
  function Run(db: Db, rs: seq<Request>, envs: seq<Env>): Db
    requires |rs| == |envs|
    decreases |rs|
  {
    if |rs| == 0 then db else Run(Handle(db, rs[0], envs[0]).db, rs[1..], envs[1..])
  }

  /** Accounts are never lost: ids stay valid and a document's email and password
      never change once created. */
  predicate Extends(before: Db, after: Db) {
    && |before.users| <= |after.users|
    && forall i :: 0 <= i < |before.users| ==>
         after.users[i].email == before.users[i].email && after.users[i].password == before.users[i].password
  }

  lemma HandleExtends(db: Db, r: Request, env: Env)
    ensures Extends(db, Handle(db, r, env).db)
  {
  }

  /** Any sequence of requests keeps the invariant and every existing account. */
  lemma {:induction false} RunPreserves(db: Db, rs: seq<Request>, envs: seq<Env>)
    requires |rs| == |envs|
    requires Valid(db)
    ensures Valid(Run(db, rs, envs))
    ensures Extends(db, Run(db, rs, envs))
    decreases |rs|
  {
    if |rs| > 0 {
      var next := Handle(db, rs[0], envs[0]).db;
      HandleExtends(db, rs[0], envs[0]);
      RunPreserves(next, rs[1..], envs[1..]);
    }
  }

  /** A second signup with the same email is refused and changes nothing. */
  lemma SignupTwiceRejected(db: Db, email: string, password: string, password': string, h: Hasher, salt: Salt, salt': Salt)
    requires Signup(db, email, password, h, salt).response.status == 201
    ensures var db' := Signup(db, email, password, h, salt).db;
            Signup(db', email, password', h, salt') == Step(db', Response(400, Message(UserExists)))
  {
    var db' := Signup(db, email, password, h, salt).db;
    assert db'.users[|db.users|].email == email;
  }

  /** Removing the movie just added restores the collection: /remove undoes /add. */
  lemma RemoveUndoesAdd(db: Db, uid: nat, id: int, title: string, img: string)
    requires uid < |db.users| && !HasId(db.users[uid].likedMovies, id)
    ensures Remove(Add(db, uid, id, title, img).db, uid, id).db == db
  {
    var user := db.users[uid];
    RemoveAfterAppend(user.likedMovies, Movie(id, title, img));
    var after := Remove(Add(db, uid, id, title, img).db, uid, id).db;
    assert after.users[uid] == user;
    assert after.users == db.users;
  }

  /** Adding a movie twice is refused the second time and the list holds it once. */
  lemma AddTwiceRejected(db: Db, uid: nat, id: int, title: string, img: string, title': string, img': string)
    requires uid < |db.users| && !HasId(db.users[uid].likedMovies, id)
    ensures var db' := Add(db, uid, id, title, img).db;
            && Add(db', uid, id, title', img') == Step(db', Response(400, Message(AlreadyInList)))
            && CountId(db'.users[uid].likedMovies, id) == 1
  {
    var ms := db.users[uid].likedMovies;
    var entry := Movie(id, title, img);
    var db' := Add(db, uid, id, title, img).db;
    assert entry in db'.users[uid].likedMovies;
    CountAppend(ms, entry, id);
    CountAbsent(ms, id);
  }

  /** A repeated /remove is a no-op. */
  lemma RemoveIdempotent(db: Db, uid: nat, movieId: int)
    ensures var db' := Remove(db, uid, movieId).db;
            Remove(db', uid, movieId).db == db'
  {
    var db' := Remove(db, uid, movieId).db;
    if uid < |db.users| {
      RemoveIdIdempotent(db.users[uid].likedMovies, movieId);
      assert Remove(db', uid, movieId).db.users == db'.users;
    }
  }

  /** /remove of an id the list lacks leaves the collection as it was. */
  lemma RemoveAbsentUnchanged(db: Db, uid: nat, movieId: int)
    requires uid < |db.users| && !HasId(db.users[uid].likedMovies, movieId)
    ensures Remove(db, uid, movieId).db == db
  {
    RemoveIdAbsent(db.users[uid].likedMovies, movieId);
    assert Remove(db, uid, movieId).db.users == db.users;
  }

  /** Three successive adds of fresh ids are listed by /mylist in that order,
      after the entries already there. */
  lemma MyListInInsertionOrder(db: Db, uid: nat, a: Movie, b: Movie, c: Movie)
    requires uid < |db.users|
    requires a.id != b.id && a.id != c.id && b.id != c.id
    requires !HasId(db.users[uid].likedMovies, a.id)
    requires !HasId(db.users[uid].likedMovies, b.id)
    requires !HasId(db.users[uid].likedMovies, c.id)
    ensures var db1 := Add(db, uid, a.id, a.title, a.img).db;
            var db2 := Add(db1, uid, b.id, b.title, b.img).db;
            var db3 := Add(db2, uid, c.id, c.title, c.img).db;
            MyList(db3, uid) == Response(200, LikedMovies(db.users[uid].likedMovies + [a, b, c]))
  {
  }
}

=== FILE: sessions.dfy ===
/** The session lifecycle across the backend: an account created by /signup can
    log in with its password, and the token it receives opens the protected
    routes for that account for exactly one day. */
module Sessions {
  import opened Wrappers
  import opened UserModel
  import opened Crypto
  import opened Http
  import opened Auth
  import opened Server

  /** Signup, then login at `issued`, then a request at `now` carrying
      `Bearer <token>`: the gate lets it through as the new account before the
      day is over, and answers "Invalid Token" from then on. */
  lemma SignupLoginVerify(db: Db, email: string, password: string, h: Hasher, salt: Salt,
                          j: Jwt, issued: int, now: int)
    requires Valid(db)
    requires SaltRecoverable(h) && Sound(j) && Compact(j)
    requires Signup(db, email, password, h, salt).response.status == 201
    ensures var db' := Signup(db, email, password, h, salt).db;
            var r := Login(db', email, password, h, j, issued);
            && r.status == 200
            && r.body.id == |db.users|
            && VerifyToken(Some("Bearer " + r.body.token), j, now) ==
                 if now < issued + OneDay then Next(Issue(|db.users|, issued))
                 else Deny(Response(400, Message(InvalidToken)))
  {
    var db' := Signup(db, email, password, h, salt).db;
    var id := |db.users|;
    assert db'.users[id] == User(email, h.hash(password, salt), []);
    CompareHashed(h, password, salt);
    var r := Login(db', email, password, h, j, issued);
    FindByEmailUnique(db'.users, email, id);
    assert r.body.id == id;
    var token := j.sign(Issue(id, issued));
    assert r.body.token == token;
    BearerField(token);
    IssuedTokenLifetime(j, id, issued, now);
  }

  /** A wrong password and an unknown email get the same answer and no token. */
  lemma WrongPasswordLikeUnknownEmail(db: Db, email: string, password: string, other: string,
                                      h: Hasher, j: Jwt, now: int)
    requires Valid(db)
    requires FindByEmail(db.users, email).Some?
    requires !Compare(h, password, db.users[FindByEmail(db.users, email).value].password)
    requires !Registered(db.users, other)
    ensures Login(db, email, password, h, j, now) == Login(db, other, password, h, j, now)
    ensures Login(db, email, password, h, j, now) == Response(400, Message(InvalidCredentials))
  {
  }
}

=== FILE: user_model.dfy ===
/** The user document of the accounts collection (Backend/models/User.js) and the
    semantics of the three list operations the application performs on its
    `likedMovies` array: `Array.prototype.find` by id, `$push` of a new entry and
    `$pull` / `filter` of every entry with a given id. */
module UserModel {
  import opened Wrappers

  /** One entry of `likedMovies`: a numeric catalog id, a title and an image path. */
  datatype Movie = Movie(id: int, title: string, img: string)

  /** A user document. `password` holds the salted digest, never the plaintext. */
  datatype User = User(email: string, password: string, likedMovies: seq<Movie>)

  /** The `required` validator of a String path: the value must be a non-empty string. */
  predicate Required(s: string) {
    |s| > 0
  }

  /** The document passes the schema's validators and may be saved. */
  predicate Admissible(u: User) {
    Required(u.email) && Required(u.password)
  }

  /** Some entry of `ms` carries the id `id`. */
  predicate HasId(ms: seq<Movie>, id: int) {
    exists m :: m in ms && m.id == id
  }

  /** No two entries of a list share an id. */
  predicate UniqueIds(ms: seq<Movie>) {
    forall i, j :: 0 <= i < j < |ms| ==> ms[i].id != ms[j].id
  }

  /** The number of entries of `ms` whose id is `id`. */
  function CountId(ms: seq<Movie>, id: int): nat {
    if |ms| == 0 then 0
    else (if ms[0].id == id then 1 else 0) + CountId(ms[1..], id)
  }

  /** Appending one entry adds one to the count of its id. */
  lemma {:induction false} CountAppend(ms: seq<Movie>, m: Movie, id: int)
    ensures CountId(ms + [m], id) == CountId(ms, id) + (if m.id == id then 1 else 0)
  {
    if |ms| > 0 {
      assert (ms + [m])[1..] == ms[1..] + [m];
      CountAppend(ms[1..], m, id);
    } else {
      assert ([m])[1..] == [];
    }
  }

  /** An id that is absent is counted zero times. */
  lemma {:induction false} CountAbsent(ms: seq<Movie>, id: int)
    requires !HasId(ms, id)
    ensures CountId(ms, id) == 0
  {
    if |ms| > 0 {
      assert ms[0] in ms;
      assert !HasId(ms[1..], id) by {
        forall m | m in ms[1..] ensures m.id != id {
          assert m in ms;
        }
      }
      CountAbsent(ms[1..], id);
    }
  }

  /** `a` is obtained from `b` by deleting entries, keeping the order of the rest. */
  predicate IsSubsequence(a: seq<Movie>, b: seq<Movie>)
    decreases |b|
  {
    |a| == 0 ||
    (|b| > 0 && ((a[0] == b[0] && IsSubsequence(a[1..], b[1..])) || IsSubsequence(a, b[1..])))
  }

  /** `ms.find(movie => movie.id === id)`: the first entry with that id, if any. */
  function FindById(ms: seq<Movie>, id: int): (r: Option<Movie>)
    ensures r.None? <==> !HasId(ms, id)
    ensures r.Some? ==> r.value.id == id
    ensures r.Some? ==> exists i :: 0 <= i < |ms| && ms[i] == r.value && !HasId(ms[..i], id)
  {
    if |ms| == 0 then None
    else if ms[0].id == id then
      assert ms[..0] == [];
      Some(ms[0])
    else
      var r := FindById(ms[1..], id);
      assert ms == [ms[0]] + ms[1..];
      if r.Some? then
        var i :| 0 <= i < |ms[1..]| && ms[1..][i] == r.value && !HasId(ms[1..][..i], id);
        assert ms[..i + 1] == [ms[0]] + ms[1..][..i];
        r
      else
        r
  }

  /** `$pull: { likedMovies: { id } }` on the server and
      `prev.filter(item => item.id !== id)` on the client: every entry with that id
      goes, the others stay. */
  function RemoveId(ms: seq<Movie>, id: int): (r: seq<Movie>)
    ensures forall m :: m in r <==> m in ms && m.id != id
    ensures !HasId(r, id)
    ensures |r| == |ms| - CountId(ms, id)
  {
    if |ms| == 0 then []
    else if ms[0].id == id then RemoveId(ms[1..], id)
    else [ms[0]] + RemoveId(ms[1..], id)
  }

  /** What is kept is a subsequence: the surviving entries keep their relative order. */
  lemma {:induction false} RemoveIdIsSubsequence(ms: seq<Movie>, id: int)
    ensures IsSubsequence(RemoveId(ms, id), ms)
  {
    if |ms| > 0 {
      RemoveIdIsSubsequence(ms[1..], id);
      var r := RemoveId(ms[1..], id);
      if ms[0].id != id {
        assert ([ms[0]] + r)[1..] == r;
      } else {
        SubsequenceOfTail(r, ms);
      }
    }
  }

  lemma SubsequenceOfTail(a: seq<Movie>, b: seq<Movie>)
    requires |b| > 0 && IsSubsequence(a, b[1..])
    ensures IsSubsequence(a, b)
  {
  }

  /** Removing an id that is absent changes nothing. */
  lemma {:induction false} RemoveIdAbsent(ms: seq<Movie>, id: int)
    requires !HasId(ms, id)
    ensures RemoveId(ms, id) == ms
  {
    if |ms| > 0 {
      assert ms[0] in ms;
      assert !HasId(ms[1..], id) by {
        forall m | m in ms[1..] ensures m.id != id {
          assert m in ms;
        }
      }
      RemoveIdAbsent(ms[1..], id);
      assert ms == [ms[0]] + ms[1..];
    }
  }

  /** Removal is idempotent: a repeated remove request is a no-op. */
  lemma RemoveIdIdempotent(ms: seq<Movie>, id: int)
    ensures RemoveId(RemoveId(ms, id), id) == RemoveId(ms, id)
  {
  }

  /** Removal acts on each part of a concatenation independently. */
  lemma {:induction false} RemoveIdAppend(a: seq<Movie>, b: seq<Movie>, id: int)
    ensures RemoveId(a + b, id) == RemoveId(a, id) + RemoveId(b, id)
  {
    if |a| > 0 {
      assert (a + b)[1..] == a[1..] + b;
      RemoveIdAppend(a[1..], b, id);
      assert (a + b)[0] == a[0];
    } else {
      assert a + b == b;
    }
  }

  /** The tail of a list without duplicate ids has none either, and lacks the
      head's id. */
  lemma UniqueTail(ms: seq<Movie>)
    requires |ms| > 0 && UniqueIds(ms)
    ensures UniqueIds(ms[1..]) && !HasId(ms[1..], ms[0].id)
  {
    var tail := ms[1..];
    forall i, j | 0 <= i < j < |tail| ensures tail[i].id != tail[j].id {
      assert tail[i] == ms[i + 1] && tail[j] == ms[j + 1];
    }
    forall m | m in tail ensures m.id != ms[0].id {
      var k :| 0 <= k < |tail| && tail[k] == m;
      assert tail[k] == ms[k + 1];
    }
  }

  /** Putting an entry with a fresh id in front keeps the list free of duplicate ids. */
  lemma ConsFreshKeepsUnique(m: Movie, r: seq<Movie>)
    requires UniqueIds(r) && !HasId(r, m.id)
    ensures UniqueIds([m] + r)
  {
    var r' := [m] + r;
    forall i, j | 0 <= i < j < |r'| ensures r'[i].id != r'[j].id {
      if i == 0 {
        assert r'[j] == r[j - 1] && r[j - 1] in r;
      } else {
        assert r'[i] == r[i - 1] && r'[j] == r[j - 1];
      }
    }
  }

  /** Removal keeps the list free of duplicate ids. */
  lemma {:induction false} RemoveIdKeepsUnique(ms: seq<Movie>, id: int)
    requires UniqueIds(ms)
    ensures UniqueIds(RemoveId(ms, id))
  {
    if |ms| > 0 {
      var tail := ms[1..];
      UniqueTail(ms);
      RemoveIdKeepsUnique(tail, id);
      var r := RemoveId(tail, id);
      if ms[0].id != id {
        forall m | m in r ensures m.id != ms[0].id {
          assert m in tail;
        }
        ConsFreshKeepsUnique(ms[0], r);
      }
    }
  }

  /** Appending an entry whose id is new keeps the list free of duplicate ids. */
  lemma AppendFreshKeepsUnique(ms: seq<Movie>, m: Movie)
    requires UniqueIds(ms) && !HasId(ms, m.id)
    ensures UniqueIds(ms + [m])
  {
  }

  /** Removing the id of an entry just appended to a list that lacked it restores
      the list: `$pull` undoes `$push`. */
  lemma RemoveAfterAppend(ms: seq<Movie>, m: Movie)
    requires !HasId(ms, m.id)
    ensures RemoveId(ms + [m], m.id) == ms
  {
    RemoveIdAppend(ms, [m], m.id);
    RemoveIdAbsent(ms, m.id);
    assert RemoveId([m], m.id) == [];
  }
}

=== FILE: wrappers.dfy ===
/** The optional value used wherever the JavaScript code has `null`/`undefined`
    or a lookup that may miss. */
module Wrappers {

  datatype Option<+T> = None | Some(value: T) {

    /** The value, or `default` when absent. */
    function GetOr(default: T): T {
      match this
      case Some(v) => v
      case None => default
    }
  }
}
